=== FILE: README.md ===
# Lecturer sentiment analyzer — the scoring and advisory core in Dafny

This project models the deterministic part of the lecturer sentiment
analyzer: what happens to a transcript once speech recognition has produced
it and a sentiment scorer has rated it. It covers:

- the three-way sentiment category of a polarity (`Sentiment`);
- the metrics engine: word count, estimated duration, speaking rate, filler
  count and ratio, sentence count and average length, content words, unique
  words and vocabulary richness. It also covers the two degraded metric
  records, the basic metrics of an unanalysable text and the all-zero
  record of a failed analysis (`Metrics`);
- the feedback generator, a fixed ordered rule table from sentiment and
  metrics to advisory lines (`Feedback`);
- the analysis session: the sentiment step with its short-text and
  scorer-failure fallbacks, the final pass when live recording stops, and
  the error record (`Session`);
- the upload endpoint's file-name filter and the order in which it rejects
  requests (`Upload`).

Two helper modules support these. `PyStr` gives the Python `str` operations
the code uses: `strip`, `strip(chars)`, `lower`, `split`, `split(sep)`,
`count`, `isalpha` and the last-occurrence search behind `rsplit`.
`Wrappers` gives `Option`.

Floats are modelled as exact `real`s. The collaborators are parameters of
the model, gathered in `Session.Collaborators`: the sentiment scorer (which
may fail), the primary tokenizer (which may fail), the stopword corpus
(which may be unavailable, in which case the built-in list of lines 58-63
is used), and the elapsed session time. Feedback lines are tagged values that carry the
numbers they report. Each line keeps its leading emoji marker, because the
closing rule counts lines by their markers.

Two facts about the degraded metric records matter to their callers:

- `sentence_count >= 1` and `vocabulary_richness = unique/content` hold of
  the full metrics (`Metrics.Consistent`, proved for
  `Metrics.CalculateMetrics`). The basic metrics break the richness
  relation: an empty text has 0 content words but richness 0.5
  (`Metrics.BasicMetricsNotConsistent`).
- The error record's metrics are all zero, 0 sentences included
  (`Metrics.ErrorMetrics`), so it is the only record with fewer than one
  sentence.

Filler matching uses `strip('.,!?')`, which removes those characters from
both ends of a token, and so does `Metrics.FillerKey`.

Three consequences of the code are proved:

- The filler entry "you know" never matches a whitespace-split token
  (`Metrics.YouKnowNeverMatchesFallback`).
- On computed metrics the speaking rate is at most 150 words per minute,
  so the "too fast" (> 180) line is unreachable there
  (`Feedback.FastPaceUnreachable`).
- A short text is always told "great job": its basic metrics' 120 words
  per minute and zero fillers give two affirming lines
  (`Session.ShortTextFeedback`).

## Model

| member | source | states |
|---|---|---|
| Sentiment.Categorize | lecturer_sentiment_analyzer.py:265-270 | Positive exactly when polarity > 0.1, Negative exactly when < -0.1, Neutral exactly on [-0.1, 0.1], so both bounds are Neutral |
| Sentiment.CategorizeExamples | lecturer_sentiment_analyzer.py:201-206 | the live update's map, which has the same thresholds: 0.15 is Positive, -0.2 Negative, 0.0 Neutral, 0.1 and -0.1 Neutral |
| Sentiment.CategorizeMonotone | lecturer_sentiment_analyzer.py:265-270 | a higher polarity never gives a lower category |
| Sentiment.Scored | lecturer_sentiment_analyzer.py:272-276 | the stored sentiment keeps the scorer's polarity and subjectivity, and its category agrees with the polarity |
| Sentiment.NeutralDefault | lecturer_sentiment_analyzer.py:248-252 | the fallback sentiment is polarity 0.0, subjectivity 0.5, Neutral, and agrees with its polarity |
| PyStr.Lower | lecturer_sentiment_analyzer.py:380 | `lower()` keeps the length and maps each character on its own: it leaves no ASCII capital, keeps letters letters and whitespace whitespace, and changes exactly the capitals |
| PyStr.LowerMapsAlphabet | lecturer_sentiment_analyzer.py:380 | the `k`-th capital letter of the alphabet becomes the `k`-th small letter, for each of the 26 |
| PyStr.LowerIdempotent | lecturer_sentiment_analyzer.py:320-321 | lower-casing twice is lower-casing once, and the result has no ASCII capital |
| PyStr.Words | lecturer_sentiment_analyzer.py:347 | `split()` gives non-empty pieces without whitespace, no more pieces than characters; `WordsAtSpace` and `WordsOfWord` complete it to the maximal non-whitespace runs |
| PyStr.CountChar | lecturer_sentiment_analyzer.py:358 | `count('.')` is at most the length and 0 exactly when there is no '.' |
| PyStr.CountCharIsMultiplicity | lecturer_sentiment_analyzer.py:358 | `count(c)` is the number of occurrences of `c`: its multiplicity among the text's characters |
| PyStr.SplitOn | lecturer_sentiment_analyzer.py:315 | `split('.')` gives one more piece than there are '.', none holding a '.'; `SplitOnJoinRoundTrip` and `JoinSplitOnRoundTrip` complete it |
| PyStr.Strip | lecturer_sentiment_analyzer.py:246 | `strip()` is the slice of the text that starts at its first non-whitespace character, with only whitespace before and after it and no whitespace at either end; it is empty exactly when every character is whitespace |
| PyStr.StripStart | lecturer_sentiment_analyzer.py:246 | stripping starts at the first character outside the stripped class, every character before it being in the class |
| PyStr.StripStop | lecturer_sentiment_analyzer.py:246 | stripping stops one past the last character outside the stripped class, every character after it being in the class |
| PyStr.WordsLoseOnlySpace | lecturer_sentiment_analyzer.py:383 | the whitespace split loses exactly the whitespace: its concatenated words are the text's non-space characters |
| PyStr.StripChars | lecturer_sentiment_analyzer.py:311 | `strip(chars)` is a slice of the token with only characters of `chars` before and after it, and neither of its ends in `chars` |
| PyStr.WordsOfJoin | lecturer_sentiment_analyzer.py:347 | splitting words joined by single spaces gives back exactly those words |
| PyStr.WordsAtSpace | lecturer_sentiment_analyzer.py:347 | `split()` cuts at every whitespace character, whichever it is: the words of `a + c + b` with `c` whitespace are the words of `a` then those of `b` |
| PyStr.WordsOfWord | lecturer_sentiment_analyzer.py:383 | a text without whitespace splits into itself alone; with `WordsAtSpace` this fixes `split()` on every string, so its pieces are exactly the maximal non-whitespace runs |
| PyStr.JoinSplitOnRoundTrip | lecturer_sentiment_analyzer.py:315 | `split('.')` of dot-free pieces joined with '.' gives back exactly those pieces |
| PyStr.SplitOnJoinRoundTrip | lecturer_sentiment_analyzer.py:315 | joining the pieces of `split('.')` with '.' gives back the text |
| PyStr.LastIndexOf | main.py:41 | the last occurrence is found exactly when the character occurs, and no occurrence follows it |
| Metrics.SafeTokenize | lecturer_sentiment_analyzer.py:377-383 | the primary tokenizer gets the lower-cased text; when it fails, the tokens are exactly the whitespace split of the lower-cased text (words whose concatenation is that text minus whitespace) |
| Metrics.StopwordsInUse | lecturer_sentiment_analyzer.py:54-63 | the corpus's stopwords when it loads; otherwise the built-in list, which holds "the" and "them" |
| Metrics.EstimatedDuration | lecturer_sentiment_analyzer.py:300-306 | the duration is at least word count / 2.5, at least the elapsed time when one is known, and at least 60 s otherwise; it is one of the two candidates |
| Metrics.SpeakingRate | lecturer_sentiment_analyzer.py:308 | rate × duration = 60 × words when the duration is positive; the rate is 0 otherwise and never negative |
| Metrics.RateCap | lecturer_sentiment_analyzer.py:303-308 | over a duration of at least word count / 2.5 the rate never exceeds 150 words per minute |
| Metrics.FillerCount | lecturer_sentiment_analyzer.py:311 | the filler count is at most the token count, and 0 exactly when no token is a filler |
| Metrics.FillerCountAppend | lecturer_sentiment_analyzer.py:311 | the filler count of concatenated token runs is the sum of their counts |
| Metrics.Ratio | lecturer_sentiment_analyzer.py:312 | the filler ratio (and, at line 324, the richness) is a share: share × whole = part when the whole is positive, 0 otherwise, within [0, 1] when part ≤ whole |
| Metrics.YouKnowNeverMatchesFallback | lecturer_sentiment_analyzer.py:311 | no whitespace-split token matches the two-word filler "you know" |
| Metrics.SentenceCount | lecturer_sentiment_analyzer.py:315-316 | the number of non-blank pieces of `split('.')` when there is at least one, and 1 otherwise; so at most one more than the number of '.', and 1 when there is no '.' |
| Metrics.NonBlankIffStripped | lecturer_sentiment_analyzer.py:315 | a piece is kept (`if s.strip()`) exactly when it has a non-whitespace character |
| Metrics.SentencesOfJoin | lecturer_sentiment_analyzer.py:315-316 | non-blank dot-free sentences joined with '.' count as exactly that many sentences |
| Metrics.ContentWords | lecturer_sentiment_analyzer.py:320-321 | no more content words than tokens; `ContentWordsCount`, `ContentSource`, `ContentSourceIncreasing` and `ContentWordsComplete` pin it to the lower-cased qualifying tokens, in order |
| Metrics.ContentWordsCount | lecturer_sentiment_analyzer.py:320-322 | there are exactly as many content words as qualifying tokens, duplicates kept |
| Metrics.ContentSource | lecturer_sentiment_analyzer.py:320-321 | each content word is the lower-cased form of a qualifying token at or after its own position |
| Metrics.ContentSourceIncreasing | lecturer_sentiment_analyzer.py:320 | successive content words come from strictly increasing token positions, so token order is kept |
| Metrics.ContentWordsAreContent | lecturer_sentiment_analyzer.py:320-321 | every collected word is lower-case, alphabetic, longer than 2 and not a stopword |
| Metrics.ContentWordsComplete | lecturer_sentiment_analyzer.py:320-321 | every qualifying token is collected lower-cased |
| Metrics.Distinct | lecturer_sentiment_analyzer.py:323 | the set holds exactly the words of the list, is no larger than it, and is non-empty for a non-empty list |
| Metrics.FromCounts | lecturer_sentiment_analyzer.py:326-338 | a record built from nested counts and a duration above the floor satisfies every metrics invariant and has its ratios in range |
| Metrics.CalculateMetrics | lecturer_sentiment_analyzer.py:294-338 | the full metrics satisfy every invariant (ratios of counts, counts nested, at least 1 sentence, average = words / sentences, duration floor) and have rate within [0, 150]; the duration is the estimate from word count and elapsed time, the content words are the qualifying tokens, and the unique words are their distinct set |
| Metrics.BasicMetrics | lecturer_sentiment_analyzer.py:344-361 | whitespace-split word count (also used as content words), distinct words, sentences = count of '.' or 1, and the fixed 120 / 0 / 15 / 0.5 / 60 defaults |
| Metrics.BasicMetricsNotConsistent | lecturer_sentiment_analyzer.py:356-360 | the basic metrics of the empty text violate the richness invariant |
| Metrics.ErrorMetrics | lecturer_sentiment_analyzer.py:535-540 | every field of the error metrics is zero |
| Metrics.ErrorMetricsDistinguishable | lecturer_sentiment_analyzer.py:535-540 | neither full nor basic metrics ever equal the error record |
| Feedback.AffirmingLines | lecturer_sentiment_analyzer.py:450 | a line carries 🟢, ✅ or ✨ exactly when it is the positive-tone, balanced-pace or few-fillers line, or an error line whose quoted message carries one of them |
| Feedback.MarkerAffirming | lecturer_sentiment_analyzer.py:450 | on any line other than the error line the marker alone decides: it affirms exactly when it is the positive-tone, balanced-pace or few-fillers line |
| Feedback.ErrorLineWithCheckMarkAffirms | lecturer_sentiment_analyzer.py:541 | the error line quoting a message that holds ✅ (a missing file named `✅.wav`, say) passes the emoji test |
| Feedback.ToneLine | lecturer_sentiment_analyzer.py:403-411 | Negative gives the negative line; Neutral below 0.05 gives the neutral line; every other case gives the positive line |
| Feedback.ToneFromPolarity | lecturer_sentiment_analyzer.py:403-411 | with the category taken from the polarity: negative below -0.1, neutral on [-0.1, 0.05), positive from 0.05 |
| Feedback.ToneInputs | lecturer_sentiment_analyzer.py:396-401 | without a recorded sentiment the rule reads category Neutral and polarity 0 |
| Feedback.PaceLine | lecturer_sentiment_analyzer.py:414-421 | too fast exactly above 180, too slow exactly below 90, balanced on [90, 180], reporting the rate |
| Feedback.FillerLine | lecturer_sentiment_analyzer.py:424-432 | high above 0.08 (with ratio and count), moderate on (0.03, 0.08], few at or below 0.03 |
| Feedback.VocabularyLine | lecturer_sentiment_analyzer.py:435-441 | narrow below 0.4, rich above 0.7, varied on [0.4, 0.7] |
| Feedback.SummaryLine | lecturer_sentiment_analyzer.py:444-447 | the summary reports the word count and minutes with minutes × 60 = duration |
| Feedback.ClosingLine | lecturer_sentiment_analyzer.py:449-453 | "great job" exactly when at least two earlier lines are affirming |
| Feedback.CountAffirmingRuleLines | lecturer_sentiment_analyzer.py:450-453 | among the five rule lines only the tone, pace and filler lines can be affirming |
| Feedback.GenerateFeedback | lecturer_sentiment_analyzer.py:385-453 | without metrics one generic line; with metrics six lines in the order tone, pace, fillers, vocabulary, summary, closing; "great job" exactly when two of the first three affirm; the first five lines are exactly the tone, pace, filler, vocabulary and summary rules applied to the sentiment and metrics, and the sixth is the closing rule over them |
| Feedback.GeneratedLinesAreNotErrors | lecturer_sentiment_analyzer.py:388-453 | generated feedback never contains an error line or the retry hint |
| Feedback.FastPaceUnreachable | lecturer_sentiment_analyzer.py:415-416 | for computed metrics the pace line is never "too fast" |
| Session.FreshResult | lecturer_sentiment_analyzer.py:65-70 | a new analyzer has an empty transcript, no sentiment, no metrics and no feedback |
| Session.AnalyzeSentiment | lecturer_sentiment_analyzer.py:241-292 | short text or a failing scorer gives the neutral sentiment with basic metrics; otherwise the scored sentiment with full metrics; transcript and feedback are untouched |
| Session.TooShortIffStripShort | lecturer_sentiment_analyzer.py:246 | a text is short exactly when it is under five characters once stripped |
| Session.ShortTextIgnoresCollaborators | lecturer_sentiment_analyzer.py:246-254 | a short text's analysis does not depend on scorer, tokenizer, stopwords or clock, and gives the fixed neutral and basic values |
| Session.WithFeedback | lecturer_sentiment_analyzer.py:459 | the feedback step replaces only the feedback, with the generator's output for the record's sentiment and metrics |
| Session.ShortTextFeedback | lecturer_sentiment_analyzer.py:246-254 | the feedback of a short text is neutral tone, balanced pace at 120, few fillers, varied vocabulary, its word count over one minute, and "great job" |
| Session.FreshFeedback | lecturer_sentiment_analyzer.py:390-393 | a fresh analyzer's feedback is the single generic line |
| Session.StopLiveRecording | lecturer_sentiment_analyzer.py:181-190 | recording stops; a blank live transcript leaves the results unchanged; otherwise the results are the feedback step applied to the analysis with no explicit text, so the installed stripped transcript is what is analysed |
| Session.StopIdempotent | lecturer_sentiment_analyzer.py:181-190 | stopping twice with the same collaborators, the same elapsed time included, gives the same state as stopping once |
| Session.StopAgainWithLaterClock | lecturer_sentiment_analyzer.py:301-303 | a second stop with a different clock keeps transcript, sentiment, every metric but duration and rate, and the tone, filler and vocabulary lines |
| Session.CreateErrorResults | lecturer_sentiment_analyzer.py:530-543 | the transcript is "Analysis failed: " then the message; the sentiment is neutral, the metrics are all zero, and the feedback is exactly the error line and the retry hint |
| Session.ErrorResultsDistinguishable | lecturer_sentiment_analyzer.py:530-543 | an analysed record never carries the error line or zero sentences, while the error record has zero sentences |
| Upload.Extension | main.py:41 | the extension exists exactly when the name has a '.', is the dot-free suffix after the last '.' |
| Upload.AllowedFile | main.py:38-41 | an accepted name has a '.' and an extension of at least three characters |
| Upload.AllowedFileIff | main.py:40-41 | `stem.ext` with a dot-free `ext` is accepted exactly when `ext` lower-cased is wav, mp3, ogg, m4a or flac, whatever dots the stem holds |
| Upload.CaseInsensitive | main.py:41 | acceptance does not depend on the case of the extension |
| Upload.TrailingDotRejected | main.py:41 | a name ending in '.' is rejected |
| Upload.UpperCaseLastExtensionAccepted | main.py:21 | "a.tar.WAV" is accepted |
| Upload.InnerExtensionIgnored | main.py:41 | "x.wav.txt" is rejected |
| Upload.AdmitRequest | main.py:390-403 | a request reaches analysis exactly when the analyzer exists, an audio part is present, its name is non-empty and allowed; that part is analysed; only the missing analyzer gives 500 |
| Upload.RejectionOrder | main.py:390-401 | each rejection reason holds exactly when all earlier checks pass and its own fails |
| Upload.NoDotNeverAdmitted | main.py:433 | an audio part whose name has no '.' is always rejected |

## Left out

- Speech recognition, microphone calibration and the live listen loop: these are external services and blocking I/O. So are `transcribe_audio`, `run_analysis_from_file` and `start_live_recording`.
- `analyze_live_sentiment` beyond its category map (lines 201-206): it stores `live_sentiment` and `live_metrics` in the results (lines 219-231), but nothing in the modelled code reads them, and `Session.AnalysisResult` does not carry them.
- The sentiment scorer (TextBlob): it is the `score` collaborator, which returns a polarity in [-1, 1] and a subjectivity in [0, 1], or fails.
- Tokenization (NLTK `word_tokenize`) and the NLTK stopword corpus: they are the `tokenize` and `corpus` collaborators. Only the whitespace-split fallback and the built-in stopword list are modelled.
- `time.time()`: the elapsed session time is an optional input.
- Floating point: all ratios are exact reals, so rounding and IEEE edge cases are not modelled.
- `str.lower()` and `str.isalpha()` are modelled for ASCII letters only. Non-ASCII letters are treated as non-letters and are not case-mapped.
- The `except` branches of `calculate_metrics` (340-342), `calculate_basic_metrics` (362-375) and `generate_feedback` (455-457). With the collaborators' failures made explicit, nothing in the modelled code can raise there.
- Feedback wording and number formatting (`:.0f`, `:.1f`): a line is a tagged value carrying its numbers and its emoji marker.
- JSON saving, printing and `print_results`.
- The Flask app, `secure_filename`, saving and deleting the upload, the size cap and the HTML template. The request is abstracted to the analyzer's presence and the uploaded parts by field name.
- The file object's truthiness in `if file and allowed_file(...)`: once the empty name is rejected the object is always truthy, so it is folded into the name checks.
- Session.StopIdempotent: holds only for one elapsed time; a second stop reads the clock again (line 302), and `Session.StopAgainWithLaterClock` states what stays the same.

=== FILE: feedback.dfy ===
/** The feedback generator: a fixed, ordered rule table from the
    sentiment and metrics of an analysis to advisory lines. Lines are
    tagged values carrying the numbers they report; each line's leading
    emoji marker is kept, because the closing rule counts lines by their
    markers. */
module Feedback {
  import opened Wrappers
  import opened Sentiment
  import opened Metrics

  datatype FeedbackLine =
    // sentiment rule
    | NegativeTone | NeutralTone | PositiveTone
    // pace rule
    | TooFast(rate: real) | TooSlow(rate: real) | BalancedPace(rate: real)
    // filler rule
    | HighFillers(ratio: real, count: nat) | ModerateFillers(ratio: real) | FewFillers
    // vocabulary rule
    | NarrowVocabulary | RichVocabulary | VariedVocabulary
    // summary rule
    | Summary(words: nat, minutes: real)
    // closing rule
    | GreatJob | KeepPracticing
    // the single line produced when no metrics are available
    | MetricsUnavailable
    // the two lines of a failed analysis
    | AnalysisError(message: string) | CheckAndRetry

  /** The emoji a line starts with. The rest of every rule line is ASCII
      text and formatted numbers, so these are the only code points of a
      rule line outside ASCII; the error line also quotes its message. */
  function Marker(l: FeedbackLine): string {
    match l
    case NegativeTone => "\U{1F534}"
    case NeutralTone => "\U{1F7E1}"
    case PositiveTone => "\U{1F7E2}"
    case TooFast(_) => "\U{26A1}"
    case TooSlow(_) => "\U{1F40C}"
    case BalancedPace(_) => "\U{2705}"
    case HighFillers(_, _) => "\U{1F6A8}"
    case ModerateFillers(_) => "\U{26A0}\U{FE0F}"
    case FewFillers => "\U{2728}"
    case NarrowVocabulary => "\U{1F4DA}"
    case RichVocabulary => "\U{1F393}"
    case VariedVocabulary => "\U{1F4D6}"
    case Summary(_, _) => "\U{1F4CA}"
    case GreatJob => "\U{1F31F}"
    case KeepPracticing => "\U{1F4AA}"
    case MetricsUnavailable => ""
    case AnalysisError(_) => "\U{274C}"
    case CheckAndRetry => ""
  }

  /** The three markers the closing rule looks for: green circle, check
      mark, sparkles. */
  const AffirmingMarks: set<char> := {'\U{1F7E2}', '\U{2705}', '\U{2728}'}

  /** The code points of a line that the closing rule's emoji test can
      meet: the marker of every line and, for the error line, the message
      it quotes after its marker. Everything else a line shows is ASCII
      text and formatted numbers. */
  function Scanned(l: FeedbackLine): string {
    if l.AnalysisError? then Marker(l) + l.message else Marker(l)
  }

  /** A line counts as affirming when it shows one of the affirming
      marks. */
  predicate Affirming(l: FeedbackLine) {
    exists i :: 0 <= i < |Scanned(l)| && Scanned(l)[i] in AffirmingMarks
  }

  /** Exactly the positive-tone, balanced-pace and few-fillers lines are
      affirming, together with an error line whose message shows an
      affirming mark; in particular no vocabulary, summary, closing,
      generic or retry line is. */
  lemma AffirmingLines(l: FeedbackLine)
    ensures Affirming(l) <==>
              || l.PositiveTone? || l.BalancedPace? || l.FewFillers?
              || (l.AnalysisError? && exists i :: 0 <= i < |l.message| && l.message[i] in AffirmingMarks)
  {
    var m := Scanned(l);
    if l.PositiveTone? || l.BalancedPace? || l.FewFillers? {
      assert m[0] in AffirmingMarks;
    } else if l.AnalysisError? {
      assert m == "\U{274C}" + l.message;
      if exists i :: 0 <= i < |l.message| && l.message[i] in AffirmingMarks {
        var i :| 0 <= i < |l.message| && l.message[i] in AffirmingMarks;
        assert m[i + 1] == l.message[i];
      }
      if Affirming(l) {
        var i :| 0 <= i < |m| && m[i] in AffirmingMarks;
        assert i != 0;
        assert l.message[i - 1] == m[i];
      }
    } else {
      assert forall i :: 0 <= i < |m| ==> m[i] !in AffirmingMarks;
    }
  }

  /** Away from the error line, the marker alone decides. */
  lemma MarkerAffirming(l: FeedbackLine)
    requires !l.AnalysisError?
    ensures Affirming(l) <==> l.PositiveTone? || l.BalancedPace? || l.FewFillers?
  {
    AffirmingLines(l);
  }

  /** The error line of a failed analysis counts as affirming when its
      message shows a check mark, as the message of a missing file named
      with one would. */
  lemma ErrorLineWithCheckMarkAffirms()
    ensures Affirming(AnalysisError("\U{2705}.wav"))
  {
    AffirmingLines(AnalysisError("\U{2705}.wav"));
    assert "\U{2705}.wav"[0] in AffirmingMarks;
  }

  /** Number of affirming lines. */
  function CountAffirming(lines: seq<FeedbackLine>): (n: nat)
    ensures n <= |lines|
    ensures n == 0 <==> forall i :: 0 <= i < |lines| ==> !Affirming(lines[i])
  {
    CountWhere(lines, Affirming)
  }

  // ---------------------------------------------------------------------
  // The rules
  // ---------------------------------------------------------------------

  predicate IsToneLine(l: FeedbackLine) { l.NegativeTone? || l.NeutralTone? || l.PositiveTone? }
  predicate IsPaceLine(l: FeedbackLine) { l.TooFast? || l.TooSlow? || l.BalancedPace? }
  predicate IsFillerLine(l: FeedbackLine) { l.HighFillers? || l.ModerateFillers? || l.FewFillers? }
  predicate IsVocabularyLine(l: FeedbackLine) { l.NarrowVocabulary? || l.RichVocabulary? || l.VariedVocabulary? }
  predicate IsClosingLine(l: FeedbackLine) { l.GreatJob? || l.KeepPracticing? }

  /** Sentiment rule: Negative asks for more positive language; Neutral
      below 0.05 asks for more enthusiasm; anything else, including a
      Neutral polarity of 0.05 or more, is affirmed as positive. */
  function ToneLine(category: Category, polarity: real): (l: FeedbackLine)
    ensures IsToneLine(l)
    ensures l.NegativeTone? <==> category == Negative
    ensures l.NeutralTone? <==> category == Neutral && polarity < 0.05
    ensures l.PositiveTone? <==> category == Positive || (category == Neutral && polarity >= 0.05)
  {
    match category
    case Negative => NegativeTone
    case Neutral => if polarity < 0.05 then NeutralTone else PositiveTone
    case Positive => PositiveTone
  }

  /** For a category that agrees with its polarity, the tone line is a
      function of the polarity alone: negative below -0.1, neutral from
      -0.1 up to (not including) 0.05, positive from 0.05 on. */
  lemma ToneFromPolarity(polarity: real)
    ensures ToneLine(Categorize(polarity), polarity) == NegativeTone <==> polarity < -0.1
    ensures ToneLine(Categorize(polarity), polarity) == NeutralTone <==> -0.1 <= polarity < 0.05
    ensures ToneLine(Categorize(polarity), polarity) == PositiveTone <==> polarity >= 0.05
  {
  }

  /** Pace rule: above 180 words per minute too fast, below 90 too slow,
      otherwise balanced; the line reports the rate. */
  function PaceLine(rate: real): (l: FeedbackLine)
    ensures IsPaceLine(l) && l.rate == rate
    ensures l.TooFast? <==> rate > 180.0
    ensures l.TooSlow? <==> rate < 90.0
    ensures l.BalancedPace? <==> 90.0 <= rate <= 180.0
  {
    if rate > 180.0 then TooFast(rate)
    else if rate < 90.0 then TooSlow(rate)
    else BalancedPace(rate)
  }

  /** Filler rule: a ratio above 0.08 is high (the line reports ratio and
      count), above 0.03 moderate, otherwise few. */
  function FillerLine(ratio: real, count: nat): (l: FeedbackLine)
    ensures IsFillerLine(l)
    ensures l.HighFillers? <==> ratio > 0.08
    ensures l.ModerateFillers? <==> 0.03 < ratio <= 0.08
    ensures l.FewFillers? <==> ratio <= 0.03
    ensures l.HighFillers? ==> l.ratio == ratio && l.count == count
    ensures l.ModerateFillers? ==> l.ratio == ratio
  {
    if ratio > 0.08 then HighFillers(ratio, count)
    else if ratio > 0.03 then ModerateFillers(ratio)
    else FewFillers
  }

  /** Vocabulary rule: richness below 0.4 asks for variety, above 0.7 is
      rich, otherwise varied. */
  function VocabularyLine(richness: real): (l: FeedbackLine)
    ensures IsVocabularyLine(l)
    ensures l.NarrowVocabulary? <==> richness < 0.4
    ensures l.RichVocabulary? <==> richness > 0.7
    ensures l.VariedVocabulary? <==> 0.4 <= richness <= 0.7
  {
    if richness < 0.4 then NarrowVocabulary
    else if richness > 0.7 then RichVocabulary
    else VariedVocabulary
  }

  /** Summary rule: the word count and the duration in minutes. */
  function SummaryLine(wordCount: nat, durationSeconds: real): (l: FeedbackLine)
    ensures l.Summary? && l.words == wordCount
    ensures l.minutes * 60.0 == durationSeconds
  {
    Summary(wordCount, durationSeconds / 60.0)
  }

  /** Closing rule over the lines produced so far: "great job" when at
      least two of them are affirming, otherwise "keep practicing". */
  function ClosingLine(soFar: seq<FeedbackLine>): (l: FeedbackLine)
    ensures IsClosingLine(l)
    ensures l.GreatJob? <==> CountAffirming(soFar) >= 2
  {
    if CountAffirming(soFar) >= 2 then GreatJob else KeepPracticing
  }

  // ---------------------------------------------------------------------
  // The generator
  // ---------------------------------------------------------------------

  /** How many of the three flags hold. */
  function Holding(a: bool, b: bool, c: bool): nat {
    (if a then 1 else 0) + (if b then 1 else 0) + (if c then 1 else 0)
  }

  /** Of the five rule lines before the closing, only the first three can
      be affirming. */
  lemma CountAffirmingRuleLines(tone: FeedbackLine, pace: FeedbackLine, filler: FeedbackLine,
                                vocab: FeedbackLine, summary: FeedbackLine)
    requires IsToneLine(tone) && IsPaceLine(pace) && IsFillerLine(filler)
    requires IsVocabularyLine(vocab) && summary.Summary?
    ensures CountAffirming([tone, pace, filler, vocab, summary])
            == Holding(tone.PositiveTone?, pace.BalancedPace?, filler.FewFillers?)
  {
    MarkerAffirming(tone);
    MarkerAffirming(pace);
    MarkerAffirming(filler);
    MarkerAffirming(vocab);
    MarkerAffirming(summary);
    CountWhereFive(tone, pace, filler, vocab, summary, Affirming);
  }

  /** The sentiment the generator reads: the recorded one, or category
      Neutral with polarity 0 when none was recorded. */
  function ToneInputs(sentiment: Option<Sentiment>): (s: Sentiment)
    ensures sentiment.None? ==> s.category == Neutral && s.polarity == 0.0
    ensures sentiment.Some? ==> s == sentiment.value
  {
    sentiment.GetOr(Sentiment(0.0, 0.0, Neutral))
  }

  /** The feedback for an analysis. Without metrics: one generic line.
      With metrics: exactly six lines, one per rule, in the order
      sentiment, pace, fillers, vocabulary, summary, closing; the closing
      line is "great job" exactly when at least two of the sentiment, pace
      and filler lines are affirming. */
  function GenerateFeedback(sentiment: Option<Sentiment>, metrics: Option<Metrics>): (fb: seq<FeedbackLine>)
    ensures metrics.None? ==> fb == [MetricsUnavailable]
    ensures metrics.Some? ==>
              && |fb| == 6
              && IsToneLine(fb[0]) && IsPaceLine(fb[1]) && IsFillerLine(fb[2])
              && IsVocabularyLine(fb[3]) && fb[4].Summary? && IsClosingLine(fb[5])
    ensures metrics.Some? ==>
              (fb[5] == GreatJob <==> Holding(fb[0] == PositiveTone, fb[1].BalancedPace?, fb[2] == FewFillers) >= 2)
    ensures metrics.Some? ==>
              var s := ToneInputs(sentiment);
              var m := metrics.value;
              && fb[..5] == [ToneLine(s.category, s.polarity), PaceLine(m.speakingRate),
                             FillerLine(m.fillerRatio, m.fillerCount), VocabularyLine(m.vocabularyRichness),
                             SummaryLine(m.wordCount, m.durationSeconds)]
              && fb[5] == ClosingLine(fb[..5])
    ensures metrics.Some? ==>
              && fb[1].rate == metrics.value.speakingRate
              && fb[4].words == metrics.value.wordCount
              && fb[4].minutes * 60.0 == metrics.value.durationSeconds
  {
    match metrics
    case None => [MetricsUnavailable]
    case Some(m) =>
      var s := ToneInputs(sentiment);
      var tone := ToneLine(s.category, s.polarity);
      var pace := PaceLine(m.speakingRate);
      var filler := FillerLine(m.fillerRatio, m.fillerCount);
      var vocab := VocabularyLine(m.vocabularyRichness);
      var summary := SummaryLine(m.wordCount, m.durationSeconds);
      CountAffirmingRuleLines(tone, pace, filler, vocab, summary);
      var soFar := [tone, pace, filler, vocab, summary];
      soFar + [ClosingLine(soFar)]
  }

  /** Generated feedback consists of rule lines (or the generic line)
      only: it never carries an error line or the retry hint. */
  lemma GeneratedLinesAreNotErrors(sentiment: Option<Sentiment>, metrics: Option<Metrics>)
    ensures forall l :: l in GenerateFeedback(sentiment, metrics) ==> !l.AnalysisError? && !l.CheckAndRetry?
  {
    var fb := GenerateFeedback(sentiment, metrics);
    if metrics.Some? {
      assert fb == [fb[0], fb[1], fb[2], fb[3], fb[4], fb[5]];
    }
  }

  /** The "too fast" line never appears for metrics computed from a
      transcript: their rate is at most 150 words per minute. */
  lemma FastPaceUnreachable(sentiment: Option<Sentiment>, tokens: seq<string>, text: string,
                            elapsed: Option<real>, stopwords: set<string>)
    ensures !GenerateFeedback(sentiment, Some(CalculateMetrics(tokens, text, elapsed, stopwords)))[1].TooFast?
  {
  }
}

=== FILE: metrics.dfy ===
/** The metrics engine: from the tokens of a transcript, the raw
    transcript, an optional elapsed time and a stopword set, the delivery
    statistics (word count, duration, speaking rate, filler usage,
    sentence length, vocabulary richness); plus the two degraded records,
    the basic metrics used when there is nothing to analyse and the
    all-zero record of a failed analysis. Ratios are exact `real`s. */
module Metrics {
  import opened Wrappers
  import opened PyStr

  datatype Metrics = Metrics(
    wordCount: nat,
    speakingRate: real,          // words per minute
    fillerCount: nat,
    fillerRatio: real,
    avgSentenceLength: real,     // words per sentence
    vocabularyRichness: real,
    durationSeconds: real,
    sentenceCount: nat,
    uniqueWords: nat,
    contentWords: nat)

  // ---------------------------------------------------------------------
  // Lexicons and constants
  // ---------------------------------------------------------------------

  /** The filler lexicon, matched one token at a time. */
  const FillerWords: seq<string> :=
    ["um", "uh", "like", "you know", "so", "actually", "basically", "literally", "well", "okay"]

  /** The punctuation stripped from both ends of a token before the
      filler lookup. */
  const FillerPunctuation: set<char> := {'.', ',', '!', '?'}

  /** The stopword list used when the stopword corpus cannot be loaded. */
  const FallbackStopwords: set<string> := {
    "the", "a", "an", "and", "or", "but", "in", "on", "at", "to", "for",
    "of", "with", "by", "is", "are", "was", "were", "be", "been", "have",
    "has", "had", "do", "does", "did", "will", "would", "could", "should",
    "i", "you", "he", "she", "it", "we", "they", "me", "him", "her", "us", "them"
  }

  /** The stopwords in use: the corpus when it loads, the fallback list
      when it does not. */
  function StopwordsInUse(corpus: Option<set<string>>): (sw: set<string>)
    ensures corpus.Some? ==> sw == corpus.value
    ensures corpus.None? ==> sw == FallbackStopwords && "the" in sw && "them" in sw
  {
    corpus.GetOr(FallbackStopwords)
  }

  /** Words per second of the densest plausible speech (150 words per
      minute): the duration estimate never falls below word count / 2.5. */
  const DenseWordsPerSecond: real := 2.5

  /** The duration assumed when no session start time is known. */
  const MinimumSessionSeconds: real := 60.0

  // ---------------------------------------------------------------------
  // Tokenization
  // ---------------------------------------------------------------------

  /** The tokens of `text`: the primary tokenizer is handed the lower-cased
      text and returns `None` when it raises; the fallback is the
      whitespace split of the lower-cased text. */
  function SafeTokenize(text: string, tokenizer: string -> Option<seq<string>>): (tokens: seq<string>)
    ensures tokenizer(Lower(text)).Some? ==> tokens == tokenizer(Lower(text)).value
    ensures tokenizer(Lower(text)).None? ==>
              && tokens == Words(Lower(text))
              && (forall i :: 0 <= i < |tokens| ==> IsWord(tokens[i]))
              && Concat(tokens) == NonSpace(Lower(text))
  {
    match tokenizer(Lower(text))
    case Some(tokens) => tokens
    case None =>
      WordsLoseOnlySpace(Lower(text));
      Words(Lower(text))
  }

  // ---------------------------------------------------------------------
  // Duration and speaking rate
  // ---------------------------------------------------------------------

  /** The duration estimate: the elapsed time when a session start is
      known, otherwise 60 seconds, raised to word count / 2.5 when that is
      larger. */
  function EstimatedDuration(wordCount: nat, elapsed: Option<real>): (d: real)
    ensures d >= wordCount as real / DenseWordsPerSecond
    ensures elapsed.Some? ==> d >= elapsed.value
    ensures elapsed.None? ==> d >= 60.0
    ensures d == wordCount as real / DenseWordsPerSecond || d == elapsed.GetOr(60.0)
  {
    var floor := wordCount as real / DenseWordsPerSecond;
    match elapsed
    case Some(actual) => if actual >= floor then actual else floor
    case None => if MinimumSessionSeconds >= floor then MinimumSessionSeconds else floor
  }

  /** Words per minute over `duration` seconds, 0 when the duration is
      not positive. */
  function SpeakingRate(wordCount: nat, duration: real): (rate: real)
    ensures duration > 0.0 ==> rate * duration == wordCount as real * 60.0
    ensures duration <= 0.0 ==> rate == 0.0
    ensures rate >= 0.0
  {
    if duration > 0.0 then (wordCount as real / duration) * 60.0 else 0.0
  }

  /** The rate cap: over a duration of at least word count / 2.5 seconds
      nobody speaks faster than 150 words per minute. */
  lemma RateCap(wordCount: nat, duration: real)
    requires duration >= wordCount as real / DenseWordsPerSecond
    ensures SpeakingRate(wordCount, duration) <= 150.0
  {
    if duration > 0.0 {
      var w := wordCount as real;
      var q := w / duration;
      assert q * duration == w;
      assert (q - DenseWordsPerSecond) * duration <= 0.0;
    }
  }

  // ---------------------------------------------------------------------
  // Fillers
  // ---------------------------------------------------------------------

  /** The lookup key of a token: lower-cased, then `.,!?` stripped from
      both ends. */
  function FillerKey(token: string): string {
    StripChars(Lower(token), FillerPunctuation)
  }

  predicate IsFiller(token: string) {
    FillerKey(token) in FillerWords
  }

  /** Number of elements of `xs` that satisfy `p`. */
  function CountWhere<T>(xs: seq<T>, p: T -> bool): (n: nat)
    ensures n <= |xs|
    ensures n == 0 <==> forall i :: 0 <= i < |xs| ==> !p(xs[i])
    decreases |xs|
  {
    if |xs| == 0 then 0
    else
      var rest := CountWhere(xs[1..], p);
      assert forall i :: 1 <= i < |xs| ==> xs[1..][i - 1] == xs[i];
      (if p(xs[0]) then 1 else 0) + rest
  }

  /** Counting one element in front of the rest. */
  lemma CountWhereCons<T>(x: T, xs: seq<T>, p: T -> bool)
    ensures CountWhere([x] + xs, p) == (if p(x) then 1 else 0) + CountWhere(xs, p)
  {
    assert ([x] + xs)[0] == x;
    assert ([x] + xs)[1..] == xs;
  }

  /** The count over five elements, one term per element. */
  lemma CountWhereFive<T>(a: T, b: T, c: T, d: T, e: T, p: T -> bool)
    ensures CountWhere([a, b, c, d, e], p)
            == (if p(a) then 1 else 0) + (if p(b) then 1 else 0) + (if p(c) then 1 else 0)
               + (if p(d) then 1 else 0) + (if p(e) then 1 else 0)
  {
    CountWhereCons(e, [], p);
    assert [e] + [] == [e];
    CountWhereCons(d, [e], p);
    assert [d] + [e] == [d, e];
    CountWhereCons(c, [d, e], p);
    assert [c] + [d, e] == [c, d, e];
    CountWhereCons(b, [c, d, e], p);
    assert [b] + [c, d, e] == [b, c, d, e];
    CountWhereCons(a, [b, c, d, e], p);
    assert [a] + [b, c, d, e] == [a, b, c, d, e];
  }

  /** Counting distributes over concatenation. */
  lemma {:induction false} CountWhereAppend<T>(a: seq<T>, b: seq<T>, p: T -> bool)
    ensures CountWhere(a + b, p) == CountWhere(a, p) + CountWhere(b, p)
    decreases |a|
  {
    if |a| == 0 {
      assert a + b == b;
    } else {
      assert (a + b)[0] == a[0];
      assert (a + b)[1..] == a[1..] + b;
      CountWhereAppend(a[1..], b, p);
    }
  }

  /** When every element satisfies `p`, all of them are counted. */
  lemma {:induction false} CountWhereAll<T>(xs: seq<T>, p: T -> bool)
    requires forall i :: 0 <= i < |xs| ==> p(xs[i])
    ensures CountWhere(xs, p) == |xs|
    decreases |xs|
  {
    if |xs| > 0 {
      assert forall i :: 0 <= i < |xs| - 1 ==> xs[1..][i] == xs[i + 1];
      CountWhereAll(xs[1..], p);
    }
  }

  /** Number of filler tokens: none exactly when no token is a filler. */
  function FillerCount(tokens: seq<string>): (n: nat)
    ensures n <= |tokens|
    ensures n == 0 <==> forall i :: 0 <= i < |tokens| ==> !IsFiller(tokens[i])
  {
    CountWhere(tokens, IsFiller)
  }

  /** Filler counting distributes over concatenated token runs, so the
      count of a transcript is the sum of the counts of its chunks. */
  lemma FillerCountAppend(a: seq<string>, b: seq<string>)
    ensures FillerCount(a + b) == FillerCount(a) + FillerCount(b)
  {
    CountWhereAppend(a, b, IsFiller);
  }

  /** The share `part / whole`, 0 when `whole` is 0: the filler ratio
      (fillers over words) and the vocabulary richness (unique over
      content words) are both such shares. */
  function Ratio(part: nat, whole: nat): (r: real)
    ensures whole > 0 ==> r * whole as real == part as real
    ensures whole == 0 ==> r == 0.0
    ensures part <= whole ==> 0.0 <= r <= 1.0
    ensures 0 < part <= whole ==> r > 0.0
  {
    if whole > 0 then part as real / whole as real else 0.0
  }

  /** A token without a space can never match the two-word entry
      "you know": stripping and lower-casing introduce no space. */
  lemma YouKnowNeedsSpace(token: string)
    requires ' ' !in token
    ensures FillerKey(token) != "you know"
  {
    var low := Lower(token);
    var key := FillerKey(token);
    if |key| == |"you know"| {
      assert key[3] in low;
      assert key[3] != ' ' by {
        forall i | 0 <= i < |low| ensures low[i] != ' ' {
          assert low[i] == LowerChar(token[i]);
        }
      }
      assert key[3] != "you know"[3];
    }
  }

  /** Hence on the whitespace-split fallback tokens, "you know" never
      counts as a filler. */
  lemma YouKnowNeverMatchesFallback(text: string)
    ensures forall i :: 0 <= i < |Words(Lower(text))| ==> FillerKey(Words(Lower(text))[i]) != "you know"
  {
    var ws := Words(Lower(text));
    forall i | 0 <= i < |ws| ensures FillerKey(ws[i]) != "you know" {
      assert IsWord(ws[i]);
      assert IsSpace(' ');
      YouKnowNeedsSpace(ws[i]);
    }
  }

  // ---------------------------------------------------------------------
  // Sentences
  // ---------------------------------------------------------------------

  /** A piece with a non-whitespace character: one that is not blank
      after `strip()` (see `NonBlankIffStripped`). */
  predicate NonBlank(piece: string) {
    exists i :: 0 <= i < |piece| && !IsSpace(piece[i])
  }

  /** `NonBlank` is the truth value of `piece.strip()`. */
  lemma NonBlankIffStripped(piece: string)
    ensures NonBlank(piece) <==> Strip(piece) != []
  {
    if Strip(piece) != [] {
      var k := StripStart(piece, Whitespace);
      assert piece[k] == Strip(piece)[0];
    }
  }

  /** Sentences: the number of non-blank pieces of the text split on
      '.', or 1 when there are none. */
  function SentenceCount(text: string): (n: nat)
    ensures CountWhere(SplitOn(text, '.'), NonBlank) >= 1 ==> n == CountWhere(SplitOn(text, '.'), NonBlank)
    ensures CountWhere(SplitOn(text, '.'), NonBlank) == 0 ==> n == 1
    ensures 1 <= n <= CountChar(text, '.') + 1
    ensures '.' !in text ==> n == 1
  {
    var k := CountWhere(SplitOn(text, '.'), NonBlank);
    if k >= 1 then k else 1
  }

  /** Sentences joined by '.' are counted one by one: for dot-free,
      non-blank sentences the count is the number of sentences. */
  lemma SentencesOfJoin(sentences: seq<string>)
    requires |sentences| >= 1
    requires forall k :: 0 <= k < |sentences| ==> '.' !in sentences[k] && NonBlank(sentences[k])
    ensures SentenceCount(JoinWith(sentences, '.')) == |sentences|
  {
    JoinSplitOnRoundTrip(sentences, '.');
    CountWhereAll(sentences, NonBlank);
  }

  // ---------------------------------------------------------------------
  // Vocabulary
  // ---------------------------------------------------------------------

  /** A token counts as a content word: its lower-cased form is not a
      stopword, it is alphabetic, and it is longer than two characters. */
  predicate IsContent(token: string, stopwords: set<string>) {
    Lower(token) !in stopwords && IsAlpha(token) && |token| > 2
  }

  /** A content word as it is collected: lower-case, alphabetic, longer
      than two characters and not a stopword. */
  predicate IsContentWord(w: string, stopwords: set<string>) {
    && w !in stopwords && IsAlpha(w) && |w| > 2
    && forall i :: 0 <= i < |w| ==> !IsAsciiUpper(w[i])
  }

  /** `IsContent` against a fixed stopword set, as a test on tokens. */
  function ContentTest(stopwords: set<string>): string -> bool {
    t => IsContent(t, stopwords)
  }

  /** Lower-cased content words, in token order, duplicates kept. */
  function ContentWords(tokens: seq<string>, stopwords: set<string>): (ws: seq<string>)
    ensures |ws| <= |tokens|
    decreases |tokens|
  {
    if |tokens| == 0 then []
    else
      var rest := ContentWords(tokens[1..], stopwords);
      if IsContent(tokens[0], stopwords) then [Lower(tokens[0])] + rest else rest
  }

  /** One content word per qualifying token, duplicates kept: the list is
      exactly as long as the number of qualifying tokens. */
  lemma {:induction false} ContentWordsCount(tokens: seq<string>, stopwords: set<string>)
    ensures |ContentWords(tokens, stopwords)| == CountWhere(tokens, ContentTest(stopwords))
    decreases |tokens|
  {
    if |tokens| > 0 {
      ContentWordsCount(tokens[1..], stopwords);
      assert ContentTest(stopwords)(tokens[0]) == IsContent(tokens[0], stopwords);
    }
  }

  /** Where the `j`-th content word comes from: the index of the
      qualifying token it is the lower-cased form of. Indices grow with
      `j`, so the words keep token order. */
  function ContentSource(tokens: seq<string>, stopwords: set<string>, j: nat): (i: nat)
    requires j < |ContentWords(tokens, stopwords)|
    ensures i < |tokens| && IsContent(tokens[i], stopwords)
    ensures ContentWords(tokens, stopwords)[j] == Lower(tokens[i])
    ensures i >= j
    decreases |tokens|
  {
    var rest := ContentWords(tokens[1..], stopwords);
    if IsContent(tokens[0], stopwords) then
      if j == 0 then 0
      else
        var i' := ContentSource(tokens[1..], stopwords, j - 1);
        assert tokens[1..][i'] == tokens[i' + 1];
        i' + 1
    else
      var i' := ContentSource(tokens[1..], stopwords, j);
      assert tokens[1..][i'] == tokens[i' + 1];
      i' + 1
  }

  /** The sources of successive content words are strictly increasing
      indices, so the content words keep the tokens' order. */
  lemma {:induction false} ContentSourceIncreasing(tokens: seq<string>, stopwords: set<string>, j: nat)
    requires 0 < j < |ContentWords(tokens, stopwords)|
    ensures ContentSource(tokens, stopwords, j - 1) < ContentSource(tokens, stopwords, j)
    decreases |tokens|
  {
    if IsContent(tokens[0], stopwords) {
      if j > 1 {
        ContentSourceIncreasing(tokens[1..], stopwords, j - 1);
      }
    } else {
      ContentSourceIncreasing(tokens[1..], stopwords, j);
    }
  }

  /** Every collected word is lower-case, alphabetic, longer than two
      characters and not a stopword. */
  lemma ContentWordsAreContent(tokens: seq<string>, stopwords: set<string>)
    ensures forall j :: 0 <= j < |ContentWords(tokens, stopwords)| ==>
              IsContentWord(ContentWords(tokens, stopwords)[j], stopwords)
  {
    forall j | 0 <= j < |ContentWords(tokens, stopwords)|
      ensures IsContentWord(ContentWords(tokens, stopwords)[j], stopwords)
    {
      var i := ContentSource(tokens, stopwords, j);
      LowerIdempotent(tokens[i]);
    }
  }

  /** Every qualifying token is collected, lower-cased. */
  lemma {:induction false} ContentWordsComplete(tokens: seq<string>, stopwords: set<string>)
    ensures forall i :: 0 <= i < |tokens| && IsContent(tokens[i], stopwords) ==>
              Lower(tokens[i]) in ContentWords(tokens, stopwords)
    decreases |tokens|
  {
    if |tokens| > 0 {
      ContentWordsComplete(tokens[1..], stopwords);
      assert forall i :: 1 <= i < |tokens| ==> tokens[1..][i - 1] == tokens[i];
    }
  }

  /** The distinct elements of a sequence (Python `set(ws)`). */
  function Distinct(ws: seq<string>): (d: set<string>)
    ensures forall w :: w in d <==> w in ws
    ensures |d| <= |ws|
    ensures |ws| > 0 ==> |d| >= 1
    decreases |ws|
  {
    if |ws| == 0 then {}
    else
      var rest := Distinct(ws[1..]);
      assert forall w :: w in ws <==> w == ws[0] || w in ws[1..];
      {ws[0]} + rest
  }

  // ---------------------------------------------------------------------
  // The full computation
  // ---------------------------------------------------------------------

  /** The relations every full metrics record satisfies: the ratios are
      the ratios of the counts, sentences are at least one, the counts
      nest, and the rate and duration agree. */
  predicate Consistent(m: Metrics) {
    && m.fillerCount <= m.wordCount
    && (m.wordCount > 0 ==> m.fillerRatio * m.wordCount as real == m.fillerCount as real)
    && (m.wordCount == 0 ==> m.fillerRatio == 0.0)
    && m.sentenceCount >= 1
    && m.avgSentenceLength * m.sentenceCount as real == m.wordCount as real
    && m.uniqueWords <= m.contentWords <= m.wordCount
    && (m.contentWords > 0 ==> m.vocabularyRichness * m.contentWords as real == m.uniqueWords as real)
    && (m.contentWords == 0 ==> m.vocabularyRichness == 0.0)
    && m.durationSeconds >= m.wordCount as real / DenseWordsPerSecond
    && (m.durationSeconds > 0.0 ==> m.speakingRate * m.durationSeconds == m.wordCount as real * 60.0)
    && (m.durationSeconds <= 0.0 ==> m.speakingRate == 0.0)
  }

  /** A full metrics record from its counts and duration: the ratios,
      rate and average are derived from them, so the record is consistent
      whenever the counts nest and the duration respects the floor. */
  function FromCounts(wordCount: nat, duration: real, fillers: nat, sentences: nat,
                      unique: nat, content: nat): (m: Metrics)
    requires fillers <= wordCount && unique <= content <= wordCount && sentences >= 1
    requires duration >= wordCount as real / DenseWordsPerSecond
    ensures Consistent(m)
    ensures m.wordCount == wordCount && m.durationSeconds == duration
    ensures m.fillerCount == fillers && m.sentenceCount == sentences
    ensures m.uniqueWords == unique && m.contentWords == content
    ensures 0.0 <= m.fillerRatio <= 1.0 && 0.0 <= m.vocabularyRichness <= 1.0
    ensures unique > 0 ==> m.vocabularyRichness > 0.0
    ensures 0.0 <= m.speakingRate <= 150.0
  {
    RateCap(wordCount, duration);
    Metrics(
      wordCount := wordCount,
      speakingRate := SpeakingRate(wordCount, duration),
      fillerCount := fillers,
      fillerRatio := Ratio(fillers, wordCount),
      avgSentenceLength := wordCount as real / sentences as real,
      vocabularyRichness := Ratio(unique, content),
      durationSeconds := duration,
      sentenceCount := sentences,
      uniqueWords := unique,
      contentWords := content)
  }

  /** The metrics of a transcript from its tokens, its raw text, the
      elapsed session time if a session start is known, and the stopwords. */
  function CalculateMetrics(tokens: seq<string>, text: string, elapsed: Option<real>,
                            stopwords: set<string>): (m: Metrics)
    ensures Consistent(m)
    ensures m.wordCount == |tokens|
    ensures m.durationSeconds == EstimatedDuration(|tokens|, elapsed)
    ensures m.fillerCount == FillerCount(tokens)
    ensures m.contentWords == |ContentWords(tokens, stopwords)|
    ensures m.uniqueWords == |Distinct(ContentWords(tokens, stopwords))|
    ensures m.sentenceCount == SentenceCount(text)
    ensures 0.0 <= m.fillerRatio <= 1.0
    ensures 0.0 <= m.vocabularyRichness <= 1.0
    ensures m.contentWords > 0 ==> m.vocabularyRichness > 0.0
    ensures elapsed.None? ==> m.durationSeconds >= 60.0
    ensures elapsed.Some? ==> m.durationSeconds >= elapsed.value
    ensures 0.0 <= m.speakingRate <= 150.0
  {
    var wordCount := |tokens|;
    var duration := EstimatedDuration(wordCount, elapsed);
    var fillers := FillerCount(tokens);
    var sentences := SentenceCount(text);
    var content := ContentWords(tokens, stopwords);
    var unique := |Distinct(content)|;
    assert fillers <= wordCount && unique <= |content| <= wordCount && sentences >= 1;
    assert |content| > 0 ==> unique > 0;
    FromCounts(wordCount, duration, fillers, sentences, unique, |content|)
  }

  // ---------------------------------------------------------------------
  // Degraded records
  // ---------------------------------------------------------------------

  /** The basic metrics of a transcript that cannot be fully analysed:
      word counts from the whitespace split of the text as given, fixed
      plausible defaults for everything rate-, filler- and style-related. */
  function BasicMetrics(text: string): (m: Metrics)
    ensures m.wordCount == |Words(text)| == m.contentWords
    ensures m.uniqueWords <= m.wordCount
    ensures m.wordCount > 0 ==> m.uniqueWords >= 1
    ensures m.uniqueWords == |Distinct(Words(text))|
    ensures '.' in text ==> m.sentenceCount == CountChar(text, '.')
    ensures '.' !in text ==> m.sentenceCount == 1
    ensures m.speakingRate == 120.0 && m.durationSeconds == 60.0
    ensures m.fillerCount == 0 && m.fillerRatio == 0.0
    ensures m.avgSentenceLength == 15.0 && m.vocabularyRichness == 0.5
  {
    var words := if text != [] then Words(text) else [];
    var dots := CountChar(text, '.');
    Metrics(
      wordCount := |words|,
      speakingRate := 120.0,
      fillerCount := 0,
      fillerRatio := 0.0,
      avgSentenceLength := 15.0,
      vocabularyRichness := 0.5,
      durationSeconds := 60.0,
      sentenceCount := if text != [] then (if dots >= 1 then dots else 1) else 1,
      uniqueWords := if |words| > 0 then |Distinct(words)| else 0,
      contentWords := |words|)
  }

  /** The basic metrics break the vocabulary invariant of full metrics:
      an empty transcript has no content words yet richness 0.5. */
  lemma BasicMetricsNotConsistent()
    ensures BasicMetrics([]).contentWords == 0
    ensures BasicMetrics([]).vocabularyRichness == 0.5
    ensures !Consistent(BasicMetrics([]))
  {
  }

  /** The all-zero metrics of a failed analysis. */
  function ErrorMetrics(): (m: Metrics)
    ensures m.wordCount == 0 && m.fillerCount == 0 && m.contentWords == 0 && m.uniqueWords == 0
    ensures m.sentenceCount == 0 && m.speakingRate == 0.0 && m.durationSeconds == 0.0
    ensures m.fillerRatio == 0.0 && m.avgSentenceLength == 0.0 && m.vocabularyRichness == 0.0
  {
    Metrics(0, 0.0, 0, 0.0, 0.0, 0.0, 0.0, 0, 0, 0)
  }

  /** A failed analysis is recognisable from its metrics alone: neither
      a full nor a basic record ever has zero sentences. */
  lemma ErrorMetricsDistinguishable(tokens: seq<string>, text: string, elapsed: Option<real>,
                                    stopwords: set<string>)
    ensures CalculateMetrics(tokens, text, elapsed, stopwords) != ErrorMetrics()
    ensures BasicMetrics(text) != ErrorMetrics()
  {
  }
}

=== FILE: pystr.dfy ===
/** The Python `str` operations the analyzer relies on, over `string`
    (a sequence of Unicode code points, like a Python 3 `str`):
    `strip()`, `strip(chars)`, `lower()`, `split()`, `split(sep)`,
    `count(sep)`, `isalpha()` and the last-occurrence search behind
    `rsplit(sep, 1)`. */
module PyStr {
  import opened Wrappers

  // ---------------------------------------------------------------------
  // Character classes
  // ---------------------------------------------------------------------

  /** Python's `str.isspace` on one code point: the characters that
      `strip()` with no argument and `split()` with no argument treat as
      whitespace. */
  predicate IsSpace(c: char) {
    || ('\t' <= c <= '\r')              // \t \n \v \f \r
    || ('\U{1C}' <= c <= '\U{1F}')      // file, group, record, unit separators
    || c == ' '
    || c == '\U{85}' || c == '\U{A0}' || c == '\U{1680}'
    || ('\U{2000}' <= c <= '\U{200A}')
    || c == '\U{2028}' || c == '\U{2029}' || c == '\U{202F}'
    || c == '\U{205F}' || c == '\U{3000}'
  }

  predicate IsAsciiUpper(c: char) { 'A' <= c <= 'Z' }

  predicate IsAsciiLetter(c: char) { 'A' <= c <= 'Z' || 'a' <= c <= 'z' }

  /** `str.lower()` on one code point, for the ASCII letters. */
  function LowerChar(c: char): (r: char)
    ensures !IsAsciiUpper(r)
    ensures IsAsciiLetter(r) <==> IsAsciiLetter(c)
    ensures IsSpace(r) <==> IsSpace(c)
    ensures r == c <==> !IsAsciiUpper(c)
  {
    if IsAsciiUpper(c) then (c as int + 32) as char else c
  }

  // ---------------------------------------------------------------------
  // lower()
  // ---------------------------------------------------------------------

  /** `s.lower()`: every character mapped through `LowerChar`. */
  function Lower(s: string): (r: string)
    ensures |r| == |s|
    ensures forall i :: 0 <= i < |s| ==> r[i] == LowerChar(s[i])
  {
    seq(|s|, i requires 0 <= i < |s| => LowerChar(s[i]))
  }

  /** Lower-casing leaves no upper-case letter behind and is idempotent. */
  lemma LowerIdempotent(s: string)
    ensures forall i :: 0 <= i < |s| ==> !IsAsciiUpper(Lower(s)[i])
    ensures Lower(Lower(s)) == Lower(s)
  {
  }

  /** The ASCII alphabet in both cases, position by position. */
  const AsciiUppercase: string := "ABCDEFGHIJKLMNOPQRSTUVWXYZ"
  const AsciiLowercase: string := "abcdefghijklmnopqrstuvwxyz"

  /** `lower()` maps the `k`-th capital letter to the `k`-th small one. */
  lemma LowerMapsAlphabet(k: nat)
    requires k < 26
    ensures LowerChar(AsciiUppercase[k]) == AsciiLowercase[k]
  {
  }

  // ---------------------------------------------------------------------
  // strip() and strip(chars)
  // ---------------------------------------------------------------------

  /** The characters a strip removes: Python's `strip()` with no argument
      removes whitespace, `strip(chars)` removes the characters of `chars`. */
  datatype CharClass = Whitespace | AnyOf(chars: set<char>)

  predicate In(c: char, cls: CharClass) {
    match cls
    case Whitespace => IsSpace(c)
    case AnyOf(cs) => c in cs
  }

  /** Where the stripped text begins: the index of the first character
      of `s` outside `cls`, or `|s|` when there is none. */
  function StripStart(s: string, cls: CharClass): (k: nat)
    ensures k <= |s|
    ensures forall i :: 0 <= i < k ==> In(s[i], cls)
    ensures k == |s| || !In(s[k], cls)
    decreases |s|
  {
    if |s| == 0 || !In(s[0], cls) then 0 else 1 + StripStart(s[1..], cls)
  }

  /** Where the stripped text ends: one past the last character of `s`
      outside `cls`, or 0 when there is none. */
  function StripStop(s: string, cls: CharClass): (k: nat)
    ensures k <= |s|
    ensures forall i :: k <= i < |s| ==> In(s[i], cls)
    ensures k == 0 || !In(s[k - 1], cls)
    decreases |s|
  {
    if |s| == 0 || !In(s[|s| - 1], cls) then |s| else StripStop(s[..|s| - 1], cls)
  }

  /** Python's `strip`: the slice of `s` that starts at `StripStart` and
      both begins and ends with a kept character; everything cut off on
      either side belongs to `cls`, and the result is empty exactly when
      every character of `s` does. */
  function StripBy(s: string, cls: CharClass): (r: string)
    ensures StripStart(s, cls) + |r| <= |s|
    ensures r == s[StripStart(s, cls)..StripStart(s, cls) + |r|]
    ensures forall i :: 0 <= i < StripStart(s, cls) ==> In(s[i], cls)
    ensures forall i :: StripStart(s, cls) + |r| <= i < |s| ==> In(s[i], cls)
    ensures r == [] || (!In(r[0], cls) && !In(r[|r| - 1], cls))
    ensures r == [] <==> forall i :: 0 <= i < |s| ==> In(s[i], cls)
  {
    var lo := StripStart(s, cls);
    var hi := StripStop(s, cls);
    if lo == |s| then []
    else
      assert lo < hi;
      s[lo..hi]
  }

  /** `s.strip()`: the slice of `s` from `StripStart` on, with only
      whitespace cut off on either side and neither end whitespace; blank
      exactly when `s` is all whitespace. */
  function Strip(s: string): (r: string)
    ensures StripStart(s, Whitespace) + |r| <= |s|
    ensures r == s[StripStart(s, Whitespace)..StripStart(s, Whitespace) + |r|]
    ensures forall i :: 0 <= i < StripStart(s, Whitespace) ==> IsSpace(s[i])
    ensures forall i :: StripStart(s, Whitespace) + |r| <= i < |s| ==> IsSpace(s[i])
    ensures r == [] || (!IsSpace(r[0]) && !IsSpace(r[|r| - 1]))
    ensures r == [] <==> forall i :: 0 <= i < |s| ==> IsSpace(s[i])
  {
    StripBy(s, Whitespace)
  }

  /** `s.strip(chars)`: the slice of `s` from `StripStart` on, with only
      characters of `chars` cut off on either side and neither end in
      `chars`. */
  function StripChars(s: string, chars: set<char>): (r: string)
    ensures StripStart(s, AnyOf(chars)) + |r| <= |s|
    ensures r == s[StripStart(s, AnyOf(chars))..StripStart(s, AnyOf(chars)) + |r|]
    ensures forall i :: 0 <= i < StripStart(s, AnyOf(chars)) ==> s[i] in chars
    ensures forall i :: StripStart(s, AnyOf(chars)) + |r| <= i < |s| ==> s[i] in chars
    ensures r == [] || (r[0] !in chars && r[|r| - 1] !in chars)
  {
    StripBy(s, AnyOf(chars))
  }

  // ---------------------------------------------------------------------
  // split() with no argument
  // ---------------------------------------------------------------------

  /** A non-empty run of non-whitespace characters. */
  predicate IsWord(w: string) {
    |w| > 0 && forall i :: 0 <= i < |w| ==> !IsSpace(w[i])
  }

  /** Length of the run of non-whitespace characters that starts `s`. */
  function WordLength(s: string): (n: nat)
    ensures n <= |s|
    ensures forall i :: 0 <= i < n ==> !IsSpace(s[i])
    ensures n == |s| || IsSpace(s[n])
    decreases |s|
  {
    if |s| == 0 || IsSpace(s[0]) then 0 else 1 + WordLength(s[1..])
  }

  /** `s.split()`: the maximal runs of non-whitespace characters, in
      order; leading, trailing and repeated whitespace yields no empty
      pieces, and a blank string yields no pieces at all. */
  function Words(s: string): (ws: seq<string>)
    ensures forall i :: 0 <= i < |ws| ==> IsWord(ws[i])
    ensures |ws| <= |s|
    decreases |s|
  {
    if |s| == 0 then []
    else if IsSpace(s[0]) then Words(s[1..])
    else
      var n := WordLength(s);
      [s[..n]] + Words(s[n..])
  }

  /** The run of non-whitespace characters that starts `w + rest` is all
      of `w` when `rest` is empty or starts with whitespace. */
  lemma WordLengthOfWord(w: string, rest: string)
    requires forall i :: 0 <= i < |w| ==> !IsSpace(w[i])
    requires rest == [] || IsSpace(rest[0])
    ensures WordLength(w + rest) == |w|
  {
    var s := w + rest;
    assert forall i :: 0 <= i < |w| ==> s[i] == w[i];
    if rest != [] {
      assert s[|w|] == rest[0];
    }
  }

  /** `split()` recovers the words it is given: splitting words joined
      by single spaces gives back exactly those words. */
  lemma {:induction false} WordsOfJoin(ws: seq<string>)
    requires |ws| >= 1
    requires forall i :: 0 <= i < |ws| ==> IsWord(ws[i])
    ensures Words(JoinWith(ws, ' ')) == ws
    decreases |ws|
  {
    var w := ws[0];
    if |ws| == 1 {
      WordLengthOfWord(w, []);
      assert w + [] == w;
      assert w[|w|..] == [];
      assert Words(w) == [w[..|w|]] + Words(w[|w|..]);
    } else {
      var tail := JoinWith(ws[1..], ' ');
      var s := w + [' '] + tail;
      assert JoinWith(ws, ' ') == s;
      assert s == w + ([' '] + tail);
      WordLengthOfWord(w, [' '] + tail);
      assert s[..|w|] == w;
      assert s[|w|..] == [' '] + tail;
      assert ([' '] + tail)[1..] == tail;
      WordsOfJoin(ws[1..]);
      assert Words(s) == [w] + Words([' '] + tail);
      assert Words([' '] + tail) == Words(tail);
      assert [w] + ws[1..] == ws;
    }
  }

  /** A whitespace character ends the run of non-whitespace characters
      that starts the text. */
  lemma {:induction false} WordLengthStopsAtSpace(a: string, c: char, b: string)
    requires IsSpace(c)
    ensures WordLength(a + [c] + b) == WordLength(a)
    decreases |a|
  {
    var s := a + [c] + b;
    if |a| == 0 {
      assert s[0] == c;
    } else {
      assert s[0] == a[0];
      if !IsSpace(a[0]) {
        assert s[1..] == a[1..] + [c] + b;
        WordLengthStopsAtSpace(a[1..], c, b);
      }
    }
  }

  /** `split()` cuts at every whitespace character: the words of
      `a + [c] + b` are the words of `a` followed by the words of `b`.
      With `WordsOfWord` this fixes `split()` on every string. */
  lemma {:induction false} WordsAtSpace(a: string, c: char, b: string)
    requires IsSpace(c)
    ensures Words(a + [c] + b) == Words(a) + Words(b)
    decreases |a|
  {
    var s := a + [c] + b;
    if |a| == 0 {
      assert s[1..] == b;
    } else {
      assert s[0] == a[0];
      if IsSpace(a[0]) {
        assert s[1..] == a[1..] + [c] + b;
        WordsAtSpace(a[1..], c, b);
      } else {
        var n := WordLength(a);
        WordLengthStopsAtSpace(a, c, b);
        assert s[..n] == a[..n];
        assert s[n..] == a[n..] + [c] + b;
        WordsAtSpace(a[n..], c, b);
        assert Words(a) == [a[..n]] + Words(a[n..]);
      }
    }
  }

  /** A text without whitespace is a single word. */
  lemma WordsOfWord(w: string)
    requires IsWord(w)
    ensures Words(w) == [w]
  {
    WordLengthOfWord(w, []);
    assert w + [] == w;
    assert w[|w|..] == [];
  }

  /** The non-whitespace characters of `s`, in order. */
  function NonSpace(s: string): string
    decreases |s|
  {
    if |s| == 0 then []
    else if IsSpace(s[0]) then NonSpace(s[1..])
    else [s[0]] + NonSpace(s[1..])
  }

  /** All pieces glued together, without separators. */
  function Concat(ws: seq<string>): string
    decreases |ws|
  {
    if |ws| == 0 then [] else ws[0] + Concat(ws[1..])
  }

  /** `NonSpace` keeps a whitespace-free prefix whole. */
  lemma {:induction false} NonSpaceOfWordPrefix(s: string, n: nat)
    requires n <= |s|
    requires forall i :: 0 <= i < n ==> !IsSpace(s[i])
    ensures NonSpace(s) == s[..n] + NonSpace(s[n..])
    decreases n
  {
    if n > 0 {
      assert !IsSpace(s[0]);
      assert NonSpace(s) == [s[0]] + NonSpace(s[1..]);
      assert forall i :: 0 <= i < n - 1 ==> !IsSpace(s[1..][i]) by {
        forall i | 0 <= i < n - 1 ensures !IsSpace(s[1..][i]) { assert s[1..][i] == s[i + 1]; }
      }
      NonSpaceOfWordPrefix(s[1..], n - 1);
      assert s[1..][n - 1..] == s[n..];
      assert [s[0]] + s[1..][..n - 1] == s[..n];
    }
  }

  /** Splitting loses exactly the whitespace: gluing the words of `s`
      back together gives the non-whitespace characters of `s`. */
  lemma {:induction false} WordsLoseOnlySpace(s: string)
    ensures Concat(Words(s)) == NonSpace(s)
    decreases |s|
  {
    if |s| == 0 {
    } else if IsSpace(s[0]) {
      WordsLoseOnlySpace(s[1..]);
    } else {
      var n := WordLength(s);
      WordsLoseOnlySpace(s[n..]);
      NonSpaceOfWordPrefix(s, n);
      assert Words(s) == [s[..n]] + Words(s[n..]);
      assert ([s[..n]] + Words(s[n..]))[1..] == Words(s[n..]);
    }
  }

  // ---------------------------------------------------------------------
  // split(sep) and count(sep)
  // ---------------------------------------------------------------------

  /** Number of occurrences of `c` in `s` (`s.count(c)` for a one-character `c`). */
  function CountChar(s: string, c: char): (n: nat)
    ensures n <= |s|
    ensures n == 0 <==> c !in s
    decreases |s|
  {
    if |s| == 0 then 0 else (if s[0] == c then 1 else 0) + CountChar(s[1..], c)
  }

  /** `s.count(c)` for one character is the number of times `c` occurs:
      its multiplicity in the multiset of the text's characters. */
  lemma {:induction false} CountCharIsMultiplicity(s: string, c: char)
    ensures CountChar(s, c) == multiset(s)[c]
    decreases |s|
  {
    if |s| > 0 {
      CountCharIsMultiplicity(s[1..], c);
      assert s == [s[0]] + s[1..];
      assert multiset(s) == multiset{s[0]} + multiset(s[1..]);
    }
  }

  /** Index of the first occurrence of `c` in `s`. */
  function IndexOf(s: string, c: char): (i: nat)
    requires c in s
    ensures i < |s| && s[i] == c
    ensures c !in s[..i]
    decreases |s|
  {
    if s[0] == c then 0
    else
      var j := IndexOf(s[1..], c);
      assert s[..j + 1] == [s[0]] + s[1..][..j];
      j + 1
  }

  /** `s.split(c)` for a one-character separator: the pieces between
      consecutive occurrences of `c`, empty pieces included, so there is
      always one more piece than there are separators. */
  function SplitOn(s: string, c: char): (parts: seq<string>)
    ensures |parts| == CountChar(s, c) + 1
    ensures forall i :: 0 <= i < |parts| ==> c !in parts[i]
    decreases |s|
  {
    if c !in s then [s]
    else
      var i := IndexOf(s, c);
      CountCharSplit(s, i, c);
      [s[..i]] + SplitOn(s[i + 1..], c)
  }

  /** `CountChar` over a separator position. */
  lemma {:induction false} CountCharSplit(s: string, i: nat, c: char)
    requires i < |s| && s[i] == c && c !in s[..i]
    ensures CountChar(s, c) == 1 + CountChar(s[i + 1..], c)
    decreases i
  {
    if i > 0 {
      assert s[1..][..i - 1] == s[..i][1..];
      assert s[1..][i..] == s[i + 1..];
      CountCharSplit(s[1..], i - 1, c);
    }
  }

  /** `c.join(parts)`. */
  function JoinWith(parts: seq<string>, c: char): string
    requires |parts| >= 1
    decreases |parts|
  {
    if |parts| == 1 then parts[0] else parts[0] + [c] + JoinWith(parts[1..], c)
  }

  /** `c.join(s.split(c)) == s`: splitting on a separator loses nothing. */
  lemma {:induction false} SplitOnJoinRoundTrip(s: string, c: char)
    ensures JoinWith(SplitOn(s, c), c) == s
    decreases |s|
  {
    if c in s {
      var i := IndexOf(s, c);
      SplitOnJoinRoundTrip(s[i + 1..], c);
      var rest := SplitOn(s[i + 1..], c);
      assert SplitOn(s, c) == [s[..i]] + rest;
      assert ([s[..i]] + rest)[1..] == rest;
      assert s == s[..i] + [c] + s[i + 1..];
    }
  }

  /** `c.join(parts).split(c) == parts` for separator-free parts: the
      split recovers exactly the pieces that were joined, empty ones
      included. */
  lemma {:induction false} JoinSplitOnRoundTrip(parts: seq<string>, c: char)
    requires |parts| >= 1
    requires forall k :: 0 <= k < |parts| ==> c !in parts[k]
    ensures SplitOn(JoinWith(parts, c), c) == parts
    decreases |parts|
  {
    if |parts| > 1 {
      var p := parts[0];
      var tail := JoinWith(parts[1..], c);
      var s := p + [c] + tail;
      assert JoinWith(parts, c) == s;
      assert s[..|p|] == p;
      assert s[|p|] == c;
      var i := IndexOf(s, c);
      assert i == |p|;
      assert s[i + 1..] == tail;
      JoinSplitOnRoundTrip(parts[1..], c);
      assert [p] + parts[1..] == parts;
    }
  }

  // ---------------------------------------------------------------------
  // isalpha() and last occurrence
  // ---------------------------------------------------------------------

  /** `w.isalpha()` for ASCII text: non-empty and letters only. */
  predicate IsAlpha(w: string) {
    |w| > 0 && forall i :: 0 <= i < |w| ==> IsAsciiLetter(w[i])
  }

  /** Index of the last occurrence of `c` in `s`, or `None` when `c` does
      not occur. */
  function LastIndexOf(s: string, c: char): (r: Option<nat>)
    ensures r.None? <==> c !in s
    ensures r.Some? ==> r.value < |s| && s[r.value] == c && c !in s[r.value + 1..]
    decreases |s|
  {
    if |s| == 0 then None
    else if s[|s| - 1] == c then Some(|s| - 1)
    else
      var r := LastIndexOf(s[..|s| - 1], c);
      if r.Some? then
        assert s[r.value + 1..] == s[..|s| - 1][r.value + 1..] + [s[|s| - 1]];
        r
      else
        assert s == s[..|s| - 1] + [s[|s| - 1]];
        r
  }
}

=== FILE: sentiment.dfy ===
/** Sentiment categorisation: the three-way threshold map from the
    sentiment scorer's polarity to a category, shared by the full analysis
    and the live updates, and the neutral record the analyzer falls back
    to when there is nothing (or nothing scoreable) to analyse. */
module Sentiment {

  /** A polarity as the scorer reports it. */
  type Polarity = p: real | -1.0 <= p <= 1.0 witness 0.0

  /** A subjectivity as the scorer reports it. */
  type Subjectivity = s: real | 0.0 <= s <= 1.0 witness 0.0

  datatype Category = Positive | Negative | Neutral

  /** The polarity bound above which speech is Positive; its negation is
      the bound below which it is Negative. Both bounds are exclusive. */
  const CategoryThreshold: real := 0.1

  /** The sentiment record of one analysis. */
  datatype Sentiment = Sentiment(polarity: real, subjectivity: real, category: Category)

  /** Maps a polarity to its category; the bounds themselves are Neutral. */
  function Categorize(polarity: real): (c: Category)
    ensures c == Positive <==> polarity > 0.1
    ensures c == Negative <==> polarity < -0.1
    ensures c == Neutral <==> -0.1 <= polarity <= 0.1
  {
    if polarity > CategoryThreshold then Positive
    else if polarity < -CategoryThreshold then Negative
    else Neutral
  }

  /** Negative < Neutral < Positive. */
  function Rank(c: Category): int {
    match c
    case Negative => -1
    case Neutral => 0
    case Positive => 1
  }

  /** A higher polarity never yields a lower category. */
  lemma CategorizeMonotone(p: real, q: real)
    requires p <= q
    ensures Rank(Categorize(p)) <= Rank(Categorize(q))
  {
  }

  /** The boundary cases: 0.15 is Positive, -0.2 is Negative, 0.0 is
      Neutral, and the thresholds 0.1 and -0.1 themselves are Neutral. */
  lemma CategorizeExamples()
    ensures Categorize(0.15) == Positive
    ensures Categorize(-0.2) == Negative
    ensures Categorize(0.0) == Neutral
    ensures Categorize(0.1) == Neutral && Categorize(-0.1) == Neutral
  {
  }

  /** A scored sentiment: the category always agrees with the polarity. */
  function Scored(polarity: Polarity, subjectivity: Subjectivity): (s: Sentiment)
    ensures s.polarity == polarity && s.subjectivity == subjectivity
    ensures CategoryAgrees(s)
  {
    Sentiment(polarity, subjectivity, Categorize(polarity))
  }

  /** The category is the one its polarity maps to. */
  predicate CategoryAgrees(s: Sentiment) {
    s.category == Categorize(s.polarity)
  }

  /** The neutral record used when there is no text to score or the scorer
      fails: polarity 0.0, subjectivity 0.5, Neutral. */
  function NeutralDefault(): (s: Sentiment)
    ensures CategoryAgrees(s)
    ensures s.category == Neutral && s.polarity == 0.0 && s.subjectivity == 0.5
  {
    Sentiment(0.0, 0.5, Neutral)
  }
}

=== FILE: session.dfy ===
/** The analysis session: the result record one analyzer owns, the
    sentiment analysis step that fills its sentiment and metrics (with
    the short-text and scorer-failure fallbacks), the feedback step, the
    final pass when live recording stops, and the error record of a
    failed file analysis. The sentiment scorer, the tokenizer, the
    stopword corpus and the clock are collaborators passed in. */
module Session {
  import opened Wrappers
  import opened PyStr
  import opened Sentiment
  import opened Metrics
  import opened Feedback

  /** The result record. `None` stands for a section still empty. */
  datatype AnalysisResult = AnalysisResult(
    transcript: string,
    sentiment: Option<Sentiment>,
    metrics: Option<Metrics>,
    feedback: seq<FeedbackLine>)

  /** The record of a freshly created analyzer. */
  function FreshResult(): (r: AnalysisResult)
    ensures r.transcript == [] && r.sentiment.None? && r.metrics.None? && r.feedback == []
  {
    AnalysisResult([], None, None, [])
  }

  /** What the sentiment scorer returns for a text, or that it raised. */
  datatype ScoreOutcome = Score(polarity: Polarity, subjectivity: Subjectivity) | ScoreFailed

  /** The collaborators of an analysis: the sentiment scorer; the primary
      tokenizer (`None` when it raises); the stopword corpus (`None` when
      it cannot be loaded, and then the fallback list is used); and the
      seconds elapsed since the session start, when a start is recorded. */
  datatype Collaborators = Collaborators(
    score: string -> ScoreOutcome,
    tokenize: string -> Option<seq<string>>,
    corpus: Option<set<string>>,
    elapsed: Option<real>)

  /** Stripped texts shorter than this are not scored. */
  const MinimumScoredLength: nat := 5

  /** The text is empty, or shorter than five characters once stripped. */
  predicate TooShort(text: string) {
    text == [] || |Strip(text)| < MinimumScoredLength
  }

  /** The neutral sentiment and basic metrics of a text that is not (or
      cannot be) scored. */
  function Unscored(r: AnalysisResult, text: string): AnalysisResult {
    r.(sentiment := Some(NeutralDefault()), metrics := Some(BasicMetrics(text)))
  }

  /** The sentiment analysis step, on `text` or, when none is given, on
      the recorded transcript. A short text and a failing scorer both
      yield the neutral sentiment and the basic metrics; otherwise the
      scored sentiment, categorised from its polarity, and the full
      metrics of the text. Transcript and feedback are left as they were. */
  function AnalyzeSentiment(r: AnalysisResult, text: Option<string>, env: Collaborators): (r': AnalysisResult)
    ensures r'.transcript == r.transcript && r'.feedback == r.feedback
    ensures r'.sentiment.Some? && r'.metrics.Some?
    ensures CategoryAgrees(r'.sentiment.value)
    ensures var t := text.GetOr(r.transcript);
            TooShort(t) || env.score(t).ScoreFailed? ==>
              r'.sentiment == Some(NeutralDefault()) && r'.metrics == Some(BasicMetrics(t))
    ensures var t := text.GetOr(r.transcript);
            !TooShort(t) && env.score(t).Score? ==>
              && r'.sentiment.value.polarity == env.score(t).polarity
              && r'.sentiment.value.subjectivity == env.score(t).subjectivity
              && r'.metrics == Some(CalculateMetrics(SafeTokenize(t, env.tokenize), t, env.elapsed, StopwordsInUse(env.corpus)))
  {
    var t := text.GetOr(r.transcript);
    if TooShort(t) then Unscored(r, t)
    else
      match env.score(t)
      case ScoreFailed => Unscored(r, t)
      case Score(p, s) =>
        r.(sentiment := Some(Scored(p, s)),
           metrics := Some(CalculateMetrics(SafeTokenize(t, env.tokenize), t, env.elapsed, StopwordsInUse(env.corpus))))
  }

  /** A text is short exactly when it has fewer than five characters
      between its first and last non-whitespace character. */
  lemma TooShortIffStripShort(text: string)
    ensures TooShort(text) <==> |Strip(text)| < MinimumScoredLength
  {
  }

  /** A short text is never handed to the scorer, the tokenizer or the
      clock: its analysis is the same whatever the collaborators are, and
      it is the neutral sentiment (polarity 0.0, subjectivity 0.5) with
      the basic metrics (120 words per minute, no fillers, sentences of
      15 words, richness 0.5, one minute). */
  lemma ShortTextIgnoresCollaborators(r: AnalysisResult, text: string, env1: Collaborators, env2: Collaborators)
    requires TooShort(text)
    ensures AnalyzeSentiment(r, Some(text), env1) == AnalyzeSentiment(r, Some(text), env2)
    ensures var m := AnalyzeSentiment(r, Some(text), env1).metrics.value;
            && m.speakingRate == 120.0 && m.fillerCount == 0 && m.fillerRatio == 0.0
            && m.avgSentenceLength == 15.0 && m.vocabularyRichness == 0.5 && m.durationSeconds == 60.0
    ensures var s := AnalyzeSentiment(r, Some(text), env1).sentiment.value;
            s.polarity == 0.0 && s.subjectivity == 0.5 && s.category == Neutral
  {
  }

  /** The feedback step: the feedback section is replaced by the lines
      generated from the recorded sentiment and metrics. */
  function WithFeedback(r: AnalysisResult): (r': AnalysisResult)
    ensures r'.transcript == r.transcript && r'.sentiment == r.sentiment && r'.metrics == r.metrics
    ensures r'.feedback == GenerateFeedback(r.sentiment, r.metrics)
    ensures r.metrics.None? ==> |r'.feedback| == 1
    ensures r.metrics.Some? ==> |r'.feedback| == 6 && IsClosingLine(r'.feedback[5])
  {
    r.(feedback := GenerateFeedback(r.sentiment, r.metrics))
  }

  /** A short text is always told "great job": its neutral tone is not
      affirming, but the basic metrics' 120 words per minute and zero
      fillers are. */
  lemma ShortTextFeedback(r: AnalysisResult, text: string, env: Collaborators)
    requires TooShort(text)
    ensures WithFeedback(AnalyzeSentiment(r, Some(text), env)).feedback
            == [NeutralTone, BalancedPace(120.0), FewFillers, VariedVocabulary,
                Summary(|Words(text)|, 1.0), GreatJob]
  {
  }

  /** A freshly created analyzer has no metrics, so its feedback is the
      single generic line. */
  lemma FreshFeedback()
    ensures WithFeedback(FreshResult()).feedback == [MetricsUnavailable]
  {
  }

  // ---------------------------------------------------------------------
  // Live recording
  // ---------------------------------------------------------------------

  /** The live-recording state: whether recording is on, the transcript
      accumulated from recognised chunks, and the result record. */
  datatype LiveSession = LiveSession(recording: bool, liveTranscript: string, results: AnalysisResult)

  /** Stopping live recording. With no speech accumulated (a blank live
      transcript) the results are left exactly as they were; otherwise
      the stripped live transcript becomes the transcript and a full
      analysis and feedback pass runs over it. */
  function StopLiveRecording(s: LiveSession, env: Collaborators): (s': LiveSession)
    ensures !s'.recording && s'.liveTranscript == s.liveTranscript
    ensures (forall i :: 0 <= i < |s.liveTranscript| ==> IsSpace(s.liveTranscript[i])) ==>
              s'.results == s.results
    ensures Strip(s.liveTranscript) != [] ==>
              && s'.results.transcript == Strip(s.liveTranscript)
              && s'.results.sentiment.Some? && s'.results.metrics.Some?
              && |s'.results.feedback| == 6
              && s'.results == WithFeedback(AnalyzeSentiment(s.results.(transcript := Strip(s.liveTranscript)), None, env))
  {
    var stripped := Strip(s.liveTranscript);
    if stripped != [] then
      var installed := s.results.(transcript := stripped);
      LiveSession(false, s.liveTranscript, WithFeedback(AnalyzeSentiment(installed, None, env)))
    else
      s.(recording := false)
  }

  /** Stopping twice with the same collaborators, the same elapsed time
      included, gives the same results as stopping once: the final pass
      depends only on the live transcript and the collaborators. */
  lemma StopIdempotent(s: LiveSession, env: Collaborators)
    ensures StopLiveRecording(StopLiveRecording(s, env), env) == StopLiveRecording(s, env)
  {
  }

  /** A second stop re-reads the clock. With a different elapsed time the
      transcript, the sentiment, every count and ratio of the metrics and
      the tone, filler and vocabulary lines stay the same; only the
      duration and speaking rate (and the lines reporting them) can
      change. */
  lemma StopAgainWithLaterClock(s: LiveSession, env: Collaborators, later: Option<real>)
    requires Strip(s.liveTranscript) != []
    ensures var first := StopLiveRecording(s, env).results;
            var second := StopLiveRecording(StopLiveRecording(s, env), env.(elapsed := later)).results;
            && second.transcript == first.transcript
            && second.sentiment == first.sentiment
            && second.metrics.value.(durationSeconds := 0.0, speakingRate := 0.0)
               == first.metrics.value.(durationSeconds := 0.0, speakingRate := 0.0)
            && second.feedback[0] == first.feedback[0]
            && second.feedback[2] == first.feedback[2]
            && second.feedback[3] == first.feedback[3]
  {
    var first := StopLiveRecording(s, env).results;
    var t := Strip(s.liveTranscript);
    var installed := s.results.(transcript := t);
    assert first == WithFeedback(AnalyzeSentiment(installed, None, env));
    assert first.transcript == t;
  }

  // ---------------------------------------------------------------------
  // Error results
  // ---------------------------------------------------------------------

  const FailurePrefix: string := "Analysis failed: "

  /** The result record of a failed file analysis: the message behind a
      fixed prefix as transcript, the neutral sentiment, all-zero metrics
      and exactly two feedback lines, the error and a retry hint. */
  function CreateErrorResults(message: string): (r: AnalysisResult)
    ensures |r.transcript| == |FailurePrefix| + |message|
    ensures r.transcript[..|FailurePrefix|] == FailurePrefix
    ensures r.transcript[|FailurePrefix|..] == message
    ensures r.sentiment == Some(NeutralDefault())
    ensures r.metrics == Some(ErrorMetrics())
    ensures r.feedback == [AnalysisError(message), CheckAndRetry]
  {
    AnalysisResult(FailurePrefix + message, Some(NeutralDefault()), Some(ErrorMetrics()), [AnalysisError(message), CheckAndRetry])
  }

  /** An error record is never mistaken for an analysis: generated
      feedback never contains the error line, and analysed metrics never
      have zero sentences. */
  lemma ErrorResultsDistinguishable(message: string, r: AnalysisResult, text: Option<string>, env: Collaborators)
    ensures AnalysisError(message) !in WithFeedback(AnalyzeSentiment(r, text, env)).feedback
    ensures AnalyzeSentiment(r, text, env).metrics.value.sentenceCount >= 1
    ensures CreateErrorResults(message).metrics.value.sentenceCount == 0
  {
    var a := AnalyzeSentiment(r, text, env);
    GeneratedLinesAreNotErrors(a.sentiment, a.metrics);
  }
}

=== FILE: upload.dfy ===
/** The upload endpoint's admission logic: the allowed-extension test on
    an uploaded file name and the fixed order in which a request to the
    analyze endpoint is rejected before any analysis runs. */
module Upload {
  import opened Wrappers
  import opened PyStr

  /** The accepted audio extensions, lower-case. */
  const AllowedExtensions: set<string> := {"wav", "mp3", "ogg", "m4a", "flac"}

  /** The text after the last '.' of `filename` (`rsplit('.', 1)[1]`), or
      `None` when the name has no '.'. */
  function Extension(filename: string): (ext: Option<string>)
    ensures ext.None? <==> '.' !in filename
    ensures ext.Some? ==>
              && |ext.value| < |filename|
              && filename[|filename| - |ext.value| - 1] == '.'
              && filename[|filename| - |ext.value|..] == ext.value
              && '.' !in ext.value
  {
    match LastIndexOf(filename, '.')
    case None => None
    case Some(i) => Some(filename[i + 1..])
  }

  /** A file is accepted when its name has a '.' and the extension,
      lower-cased, is one of the allowed ones. */
  function AllowedFile(filename: string): (ok: bool)
    ensures ok ==> '.' in filename
    ensures ok ==> Extension(filename).Some? && |Extension(filename).value| >= 3
  {
    match Extension(filename)
    case None => false
    case Some(ext) => Lower(ext) in AllowedExtensions
  }

  /** The extension of `stem + "." + ext` is `ext` whenever `ext` has no
      '.', whatever dots the stem holds. */
  lemma ExtensionOfJoin(stem: string, ext: string)
    requires '.' !in ext
    ensures Extension(stem + "." + ext) == Some(ext)
  {
    var f := stem + "." + ext;
    assert f[|stem|] == '.';
    assert f[|stem| + 1..] == ext;
  }

  /** Acceptance, for every name that has a '.': `stem + "." + ext` with
      a dot-free `ext` is accepted exactly when `ext` lower-cased is an
      allowed extension. */
  lemma {:induction false} AllowedFileIff(stem: string, ext: string)
    requires '.' !in ext
    ensures AllowedFile(stem + "." + ext) <==> Lower(ext) in AllowedExtensions
  {
    ExtensionOfJoin(stem, ext);
  }

  /** Acceptance does not depend on the case of the extension. */
  lemma CaseInsensitive(stem: string, ext1: string, ext2: string)
    requires '.' !in ext1 && '.' !in ext2
    requires Lower(ext1) == Lower(ext2)
    ensures AllowedFile(stem + "." + ext1) == AllowedFile(stem + "." + ext2)
  {
    AllowedFileIff(stem, ext1);
    AllowedFileIff(stem, ext2);
  }

  /** A name ending in '.' has an empty extension and is rejected. */
  lemma TrailingDotRejected(stem: string)
    ensures !AllowedFile(stem + ".")
  {
    assert stem + "." == stem + "." + "";
    AllowedFileIff(stem, "");
  }

  /** Only the last extension counts: "a.tar.WAV" is accepted ... */
  lemma UpperCaseLastExtensionAccepted()
    ensures AllowedFile("a.tar.WAV")
  {
    assert "a.tar.WAV" == "a.tar" + "." + "WAV";
    AllowedFileIff("a.tar", "WAV");
    var low := Lower("WAV");
    assert low[0] == 'w' && low[1] == 'a' && low[2] == 'v';
    assert low == "wav";
  }

  /** ... and "x.wav.txt" is rejected. */
  lemma InnerExtensionIgnored()
    ensures !AllowedFile("x.wav.txt")
  {
    assert "x.wav.txt" == "x.wav" + "." + "txt";
    AllowedFileIff("x.wav", "txt");
    assert Lower("txt")[0] == 't';
    assert forall e | e in AllowedExtensions :: |e| > 0 && e[0] != 't';
  }

  // ---------------------------------------------------------------------
  // Admission of an analyze request
  // ---------------------------------------------------------------------

  /** An uploaded file part. */
  datatype FilePart = FilePart(filename: string)

  /** What the endpoint sees of a request: whether the analyzer was
      created at start-up, and the uploaded file parts by field name. */
  datatype Request = Request(analyzerReady: bool, files: map<string, FilePart>)

  datatype Rejection = AnalyzerNotInitialized | NoAudioPart | NoSelectedFile | InvalidFileType

  /** Either the request is refused with an HTTP status and a reason, or
      its audio part goes on to be saved and analysed. */
  datatype Admission = Rejected(status: nat, reason: Rejection) | Admitted(part: FilePart)

  /** The form field the audio file must arrive in. */
  const AudioField: string := "audio"

  /** The checks of the analyze endpoint, in order: analyzer missing
      (500), no audio part (400), empty file name (400), disallowed
      extension (400). A request is admitted exactly when it passes all
      four, and then its audio part is what gets analysed. */
  function AdmitRequest(req: Request): (a: Admission)
    ensures a.Admitted? <==>
              && req.analyzerReady
              && AudioField in req.files
              && req.files[AudioField].filename != []
              && AllowedFile(req.files[AudioField].filename)
    ensures a.Admitted? ==> a.part == req.files[AudioField]
    ensures a.Rejected? ==> (a.status == 500 <==> a.reason == AnalyzerNotInitialized)
    ensures a.Rejected? ==> a.status == 500 || a.status == 400
  {
    if !req.analyzerReady then Rejected(500, AnalyzerNotInitialized)
    else if AudioField !in req.files then Rejected(400, NoAudioPart)
    else
      var part := req.files[AudioField];
      if part.filename == [] then Rejected(400, NoSelectedFile)
      else if AllowedFile(part.filename) then Admitted(part)
      else Rejected(400, InvalidFileType)
  }

  /** The rejection reason is the first check that fails: every earlier
      check passed and this one did not. */
  lemma RejectionOrder(req: Request)
    ensures (AdmitRequest(req) == Rejected(500, AnalyzerNotInitialized)) <==> !req.analyzerReady
    ensures (AdmitRequest(req) == Rejected(400, NoAudioPart)) <==>
              req.analyzerReady && AudioField !in req.files
    ensures (AdmitRequest(req) == Rejected(400, NoSelectedFile)) <==>
              req.analyzerReady && AudioField in req.files && req.files[AudioField].filename == []
    ensures (AdmitRequest(req) == Rejected(400, InvalidFileType)) <==>
              && req.analyzerReady && AudioField in req.files
              && req.files[AudioField].filename != [] && !AllowedFile(req.files[AudioField].filename)
  {
  }

  /** A file name without '.' never reaches analysis. */
  lemma NoDotNeverAdmitted(req: Request)
    requires AudioField in req.files && '.' !in req.files[AudioField].filename
    ensures AdmitRequest(req).Rejected?
  {
  }
}

=== FILE: wrappers.dfy ===
/** The optional-value datatype shared by the other modules: Python's `None`
    versus a present value. */
module Wrappers {

  datatype Option<+T> = None | Some(value: T) {

    /** The value if present, otherwise `default` (Python's `x if x is not None else default`). */
    function GetOr(default: T): T {
      match this
      case Some(v) => v
      case None => default
    }
  }
}
